=== FILE: README.md ===
# file-drop-merge: file ordering and drag delta, in Dafny

This project models the two pieces of logic in the file-drop-and-merge page.
Both sit inside React components whose other code is view markup.

- **File ordering** (`src/FileDropAndMerge.jsx`). The component holds two
  parallel lists, `fileNames` and `fileContents`, and a nullable
  `selectedIndex`. A drop sorts the batch by name and stores names and
  contents in that one order. A click on a row selects it. `moveFile("up"|"down")`
  swaps the selected file with its neighbour in both lists and the selection
  follows. `getMergedText` joins the contents with `"\n"`.
- **Drag handle** (`src/DragBorder.jsx`). A mousedown records `startY` and
  registers a move and an up listener on the window. Each move calls
  `onDrag(Math.round((clientY - startY) / 20))`. The delta is always measured
  from the mousedown origin. Mouseup removes both listeners.

Modules:

- `NameOrder` (`name_order.dfy`): the name comparator and its order laws.
- `MergeText` (`merge_text.dfy`): `Join` with `"\n"`, its inverse `Split`, and the round trips.
- `FileOrder` (`file_order.dfy`): the state, stable sort, `Drop`, `Select`, `MoveFile`, `MergedText` and their properties.
- `MoveAsWritten` (`move_as_written.dfy`): `moveFile` over JavaScript array semantics, exactly as written, for the finding below.
- `DragBorder` (`drag_border.dfy`): `Delta` against the definition of `Math.round`, and the listener lifecycle.

Every handler is one atomic transition on an immutable state value. React's
`useState` batching is not modelled.

The model follows the code in four places that are easy to misread:

- A drop does **not** clear `selectedIndex`. It keeps whatever was selected, even
  past the end of the new list (`FileOrder.DropKeepsStaleSelection`).
- A row is selected only by a click on a rendered row, and rows exist only
  for indices of `fileNames`, so `Select` takes an existing row. `moveFile`
  also sets `selectedIndex`, to the target of the move.
- The drag handle only reports a delta. There is no `size`, no `minSize`
  clamp and no configurable sensitivity; the divisor is the constant 20.
- The handle is modelled as the list of listener pairs still registered,
  not as a strict Idle/Active flag. A mousedown that arrives before the
  previous mouseup adds a second pair, and each move then reports twice
  (`DragBorder.SecondMouseDownReportsTwice`). While mousedowns come only when
  idle, the list holds at most one origin, so the handle is the two-state
  machine Idle / Active(startY) (`DragBorder.AtMostOneDrag`).

## Model

| member | source | states |
|---|---|---|
| NameOrder.NameLeIsFirstDifference | src/FileDropAndMerge.jsx:11-13 | the character-by-character comparator is lexicographic order: `a` sorts first exactly when it is a prefix of `b` or has the smaller character at the first difference |
| NameOrder.NameLeReflexive | src/FileDropAndMerge.jsx:11-13 | every name sorts with itself |
| NameOrder.NameLeTotal | src/FileDropAndMerge.jsx:11-13 | any two names are comparable, so the sort comparator is total |
| NameOrder.NameLeTransitive | src/FileDropAndMerge.jsx:11-13 | the name order is transitive |
| NameOrder.NameLeAntisymmetric | src/FileDropAndMerge.jsx:11-13 | two names that sort both ways are equal, so ties are exactly equal names |
| MergeText.Join | src/FileDropAndMerge.jsx:26 | joining no contents gives ""; otherwise the length is the sum of the content lengths plus one newline per gap, and the text starts with the first content |
| MergeText.JoinSplit | src/FileDropAndMerge.jsx:26 | splitting any text at its newlines and joining again gives the text back |
| MergeText.SplitJoin | src/FileDropAndMerge.jsx:26 | the merged text of one or more newline-free contents splits back into exactly those contents, in order |
| MergeText.JoinAppend | src/FileDropAndMerge.jsx:26 | merging two non-empty lists one after the other is merging each with one newline between |
| FileOrder.InsertAdds | src/FileDropAndMerge.jsx:11-13 | inserting one entry adds exactly that entry to the list |
| FileOrder.InsertSorted | src/FileDropAndMerge.jsx:11-13 | inserting into a name-sorted list keeps it sorted |
| FileOrder.SortByName | src/FileDropAndMerge.jsx:11-13 | the sorted batch is in ascending name order and is a permutation of the batch |
| FileOrder.SortByNameStable | src/FileDropAndMerge.jsx:11-13 | files that share a name keep their batch order, as `Array.prototype.sort` guarantees |
| FileOrder.Drop | src/FileDropAndMerge.jsx:10-23 | after a drop the two lists have equal length, name i and content i come from the same dropped file, names ascend, the files are a permutation of the batch, ties keep batch order, and the selection is kept |
| FileOrder.DropPairOutOfOrder | src/FileDropAndMerge.jsx:10-23 | two dropped files that arrive out of name order are listed swapped, names and contents alike |
| FileOrder.Select | src/FileDropAndMerge.jsx:120-123 | clicking a row selects that row and leaves both lists unchanged |
| FileOrder.SelectEnablesArrows | src/FileDropAndMerge.jsx:102-123 | after clicking a row, "up" can move exactly when the row is not the first (the condition of line 104) and "down" exactly when it is not the last (lines 111-113) |
| FileOrder.Swap | src/FileDropAndMerge.jsx:41-48 | the destructuring swap exchanges two positions, keeps every other one and permutes the list |
| FileOrder.MoveFile | src/FileDropAndMerge.jsx:29-53 | with no selection or a blocked neighbour nothing changes; otherwise both lists swap the same two positions, all other positions stay, the selection moves to the target, both lists stay permutations of themselves, and an in-range selection stays in range |
| FileOrder.MergedText | src/FileDropAndMerge.jsx:26 | no files merge to ""; one or more newline-free contents merge to a text that splits back into exactly those contents |
| FileOrder.SwapTwice | src/FileDropAndMerge.jsx:41-48 | swapping the same two positions twice restores the list |
| FileOrder.MoveFileRoundTrip | src/FileDropAndMerge.jsx:34-52 | after a move that happened, the opposite move is allowed and restores both lists and the selection |
| FileOrder.MoveFileKeepsPairs | src/FileDropAndMerge.jsx:41-48 | a move swaps whole (name, content) pairs, so name i still belongs with content i |
| FileOrder.MoveFilePermutesEntries | src/FileDropAndMerge.jsx:29-53 | every move, blocked or not, keeps the multiset of (name, content) files |
| FileOrder.MergedTextAfterMove | src/FileDropAndMerge.jsx:26-53 | after a move the merged text is the join of the contents with the two files exchanged; a blocked move leaves it unchanged |
| FileOrder.MergedTextAfterDrop | src/FileDropAndMerge.jsx:16-26 | after a drop the merged text is the newline-join of the contents in name order, and "" for an empty batch |
| FileOrder.DropSingle | src/FileDropAndMerge.jsx:10-23 | dropping one file lists exactly that file and keeps the selection |
| FileOrder.DropKeepsStaleSelection | src/FileDropAndMerge.jsx:21-22 | dropping a.txt and b.txt, clicking row 1 and dropping c.txt alone leaves the selection at 1, past the end of the one-row list |
| FileOrder.DropExample | src/FileDropAndMerge.jsx:10-26 | dropping b.txt and a.txt lists a.txt first and merges to "A\nB" |
| FileOrder.MoveUpExample | src/FileDropAndMerge.jsx:29-53 | with a, b, c and row 1 selected, up gives b, a, c with row 0 selected |
| MoveAsWritten.JsSwap | src/FileDropAndMerge.jsx:41-48 | the JavaScript destructuring swap puts the old value at `i` into `j` and the old value at `j` into `i`, reading `undefined` past the end, keeps every other old position, reads any index skipped over by the growth (a hole) back as `undefined`, and leaves the length at the larger of the old length and one past both indices |
| MoveAsWritten.MoveFileAsWritten | src/FileDropAndMerge.jsx:29-53 | as written: no selection or a target outside the list changes nothing; otherwise the selection moves to the target, both arrays exchange the selected and target slots, every other old slot keeps its value, and each array's length becomes the larger of its old length and one past both indices |
| MoveAsWritten.JsMergedTextAgrees | src/FileDropAndMerge.jsx:26 | `getMergedText` over JavaScript arrays, where `undefined` joins as "", gives the model's `MergedText` whenever every slot holds a string |
| MoveAsWritten.AsWrittenAgreesInRange | src/FileDropAndMerge.jsx:29-53 | while the selection names an existing row, the code as written and `MoveFile` make the same move |
| MoveAsWritten.StaleUpGrowsArrays | src/FileDropAndMerge.jsx:34-48 | as written, "up" with the selection one past the last row grows both arrays by one, moves the last file one row down, leaves `undefined` where it was and keeps every row above |
| MoveAsWritten.AsWrittenDiffersExactly | src/FileDropAndMerge.jsx:29-53 | the code as written and `MoveFile` differ exactly when "up" is pressed with the selection one past the last row of a non-empty list |
| MoveAsWritten.StaleUpExample | src/FileDropAndMerge.jsx:29-53 | from the stale state of `DropKeepsStaleSelection`, pressing up as written turns the names into [undefined, "c.txt"] and the merged text into "\nC"; `MoveFile` changes nothing |
| DragBorder.Delta | src/DragBorder.jsx:10 | the reported value is `Math.round` of the travel over 20: the nearest integer, ties towards +infinity |
| DragBorder.JsRoundUnique | src/DragBorder.jsx:10 | only one integer meets the definition of `Math.round` |
| DragBorder.DeadBand | src/DragBorder.jsx:10 | the report is 0 exactly when the travel is in [-10, 10) |
| DragBorder.HalfWayRoundsUp | src/DragBorder.jsx:10 | travel 10 reports 1 and travel -10 reports 0 |
| DragBorder.DeltaMonotone | src/DragBorder.jsx:10 | moving further down never reports less |
| DragBorder.WholeSteps | src/DragBorder.jsx:10 | a travel of 20k reports k |
| DragBorder.DeltaExample | src/DragBorder.jsx:10 | pressing at 300 and moving to 260 reports -2 |
| DragBorder.DeltaTranslation | src/DragBorder.jsx:10 | only the travel from the origin matters, not the absolute position |
| DragBorder.Handle | src/DragBorder.jsx:4-20 | mousedown reports nothing and registers its origin; a move changes no state and reports once per registered pair; mouseup leaves the handle idle |
| DragBorder.MouseDownStartsDrag | src/DragBorder.jsx:4-20 | from idle, a mousedown reports nothing and makes the handle active at its coordinate |
| DragBorder.MovesReportFromEveryOrigin | src/DragBorder.jsx:4-20 | with any listener pairs registered, moves leave them registered and each move reports once per pair, from that pair's own origin, in registration order |
| DragBorder.MovesMeasureFromOrigin | src/DragBorder.jsx:7-11 | during one drag every move reports its travel from the mousedown origin, never from the previous move, and the drag stays active |
| DragBorder.RepeatedMoveRepeatsReport | src/DragBorder.jsx:9-11 | two moves to the same coordinate report the same value twice |
| DragBorder.IdleMovesReportNothing | src/DragBorder.jsx:14-20 | with no listener registered, moves report nothing |
| DragBorder.MouseUpEndsDrag | src/DragBorder.jsx:14-17 | after mouseup later moves report nothing, and a second mouseup changes nothing |
| DragBorder.GestureReportsFromOrigin | src/DragBorder.jsx:4-20 | mousedown, moves, mouseup reports each move's travel from the mousedown and ends idle |
| DragBorder.AtMostOneDrag | src/DragBorder.jsx:4-20 | while a mousedown only arrives when idle, at most one origin is registered and each event reports at most once |
| DragBorder.SecondMouseDownReportsTwice | src/DragBorder.jsx:19-20 | a mousedown before the previous mouseup registers a second pair, and a move then reports from both origins |

## Left out

- Rendering, inline styles and placeholder text: presentation only.
- The `disabled` state of the arrow buttons is related to `CanMove` only right after a row click (`FileOrder.SelectEnablesArrows`). `MoveFile` handles every case the disabled buttons would prevent, so it does not rely on them.
- `react-dropzone` configuration and the asynchronous `file.text()` reads: foreign I/O. Each dropped file is an already-read (name, content) pair, and a failed read is not modelled.
- `localeCompare` collation: replaced by plain lexicographic order on characters, a total order in which two names tie only when equal.
- `window.addEventListener` / `removeEventListener`: modelled only as the list of registered origins.
- The consumer of `onDrag`: not shown, so no size, `minSize` clamp or sensitivity setting is modelled.
- Fractional `clientY` values and floating-point `Math.round`: coordinates are integers.
- React `useState` batching: each handler is one atomic transition.

## Findings

| source | as written | input that shows it | evidently intended | confidence | as-written member | corrected member |
|---|---|---|---|---|---|---|
| src/FileDropAndMerge.jsx:38 | `moveFile` checks only `targetIndex` against `fileNames.length`, never `selectedIndex`, and `onDrop` (lines 21-22) keeps a stale `selectedIndex` | drop a.txt and b.txt, click b.txt, drop c.txt alone, press up: `selectedIndex` 1 gives target 0, and the swap writes past the end, so `fileNames` becomes [undefined, "c.txt"] and the merged text "\nC" | a move only ever exchanges two existing files: a selection outside the list moves nothing | medium, not executed | MoveAsWritten.StaleUpExample | FileOrder.MoveFile |

`MoveAsWritten.StaleUpGrowsArrays` states the general case: whenever the
selection is one past the last row, "up" grows both arrays. `FileOrder.MoveFile`
adds the missing check `selectedIndex < fileNames.length`. Its contract proves
that every move keeps both lists permutations of themselves.
`MoveAsWritten.AsWrittenAgreesInRange` proves that it agrees with the code
whenever the selection is in range, and `MoveAsWritten.AsWrittenDiffersExactly`
that the stale "up" is the only input on which the two differ.

=== FILE: drag_border.dfy ===
/** The drag handle: a mousedown on the border records the pointer's vertical
    position; every later mousemove reports `Math.round((clientY - startY) / 20)`
    measured from that recorded origin; mouseup removes the listeners again.
    Coordinates are integers. */
module DragBorder {

  /** Pointer travel per reported step. */
  const Step: int := 20

  /** `n` is what `Math.round(p / q)` returns: the integer nearest to p / q,
      and on a tie the one towards +infinity (n - 1/2 <= p/q < n + 1/2). */
  ghost predicate IsJsRound(p: int, q: int, n: int)
    requires q > 0
  {
    q * (2 * n - 1) <= 2 * p < q * (2 * n + 1)
  }

  /** The value reported for a move to `clientY` after a mousedown at `startY`. */
  function Delta(startY: int, clientY: int): (r: int)
    ensures IsJsRound(clientY - startY, Step, r)
  {
    (clientY - startY + Step / 2) / Step
  }

  /** `Math.round` has one answer: nothing else meets its definition. */
  lemma JsRoundUnique(p: int, q: int, n: int, m: int)
    requires q > 0 && IsJsRound(p, q, n) && IsJsRound(p, q, m)
    ensures n == m
  {
  }

  /** Nothing is reported while the pointer stays within 10 pixels above or
      below the origin, 10 below included, 10 above excluded. */
  lemma DeadBand(startY: int, clientY: int)
    ensures Delta(startY, clientY) == 0 <==> -10 <= clientY - startY < 10
  {
  }

  /** Half-way travel rounds towards +infinity: 10 down reports 1, 10 up reports 0. */
  lemma HalfWayRoundsUp(startY: int)
    ensures Delta(startY, startY + 10) == 1
    ensures Delta(startY, startY - 10) == 0
  {
  }

  /** Further down never reports less. */
  lemma DeltaMonotone(startY: int, y1: int, y2: int)
    requires y1 <= y2
    ensures Delta(startY, y1) <= Delta(startY, y2)
  {
  }

  /** A travel of exactly k steps reports k. */
  lemma WholeSteps(startY: int, k: int)
    ensures Delta(startY, startY + Step * k) == k
  {
    JsRoundUnique(Step * k, Step, Delta(startY, startY + Step * k), k);
  }

  /** Pressing at y = 300 and moving to y = 260 reports -2. */
  lemma DeltaExample()
    ensures Delta(300, 260) == -2
  {
  }

  /** Only the travel matters, not where on the page it happens. */
  lemma DeltaTranslation(startY: int, clientY: int, shift: int)
    ensures Delta(startY + shift, clientY + shift) == Delta(startY, clientY)
  {
  }

  // ---------------------------------------------------------------------
  // Listener lifecycle

  /** The pointer events the handle sees. A mousedown is on the border itself;
      moves and ups are on the window. */
  datatype Event = MouseDown(clientY: int) | MouseMove(clientY: int) | MouseUp

  /** The listener pairs currently registered on the window, each by the origin
      its mousedown recorded. Idle is no pair; Active(startY) is the one pair
      [startY]. A mousedown that arrives while a pair is still registered adds
      a second pair, since the code never removes the first one there. */
  datatype Gesture = Gesture(origins: seq<int>)
  {
    predicate IsIdle() { |origins| == 0 }
  }

  const Idle := Gesture([])

  /** The state after an event and what `onDrag` was called with, in order. */
  datatype Outcome = Outcome(gesture: Gesture, reported: seq<int>)

  /** What the registered move listeners report for a move to `y`, in
      registration order. */
  function Reports(origins: seq<int>, y: int): seq<int>
  {
    seq(|origins|, k requires 0 <= k < |origins| => Delta(origins[k], y))
  }

  function Handle(g: Gesture, e: Event): (o: Outcome)
    ensures e.MouseDown? ==> o.reported == [] && o.gesture.origins == g.origins + [e.clientY]
    ensures e.MouseMove? ==> o.gesture == g && |o.reported| == |g.origins|
    ensures e.MouseUp? ==> o.gesture.IsIdle() && o.reported == []
  {
    match e
    case MouseDown(y) => Outcome(Gesture(g.origins + [y]), [])
    case MouseMove(y) => Outcome(g, Reports(g.origins, y))
    case MouseUp => Outcome(Idle, [])
  }

  /** A stream of events, the reports concatenated. */
  function Run(g: Gesture, es: seq<Event>): Outcome
    decreases |es|
  {
    if |es| == 0 then Outcome(g, [])
    else
      var first := Handle(g, es[0]);
      var rest := Run(first.gesture, es[1..]);
      Outcome(rest.gesture, first.reported + rest.reported)
  }

  function Moves(ys: seq<int>): seq<Event>
  {
    seq(|ys|, k requires 0 <= k < |ys| => MouseMove(ys[k]))
  }

  /** From idle, a mousedown reports nothing and makes the drag active at its
      coordinate. */
  lemma MouseDownStartsDrag(y: int)
    ensures Handle(Idle, MouseDown(y)) == Outcome(Gesture([y]), [])
  {
  }

  /** The reports of several moves, one after the other. */
  function Flatten(xss: seq<seq<int>>): seq<int>
  {
    if |xss| == 0 then [] else xss[0] + Flatten(xss[1..])
  }

  /** Whatever listener pairs are registered, moves leave them registered and
      each move reports once per pair, from that pair's own origin, in
      registration order. */
  lemma {:induction false} MovesReportFromEveryOrigin(g: Gesture, ys: seq<int>)
    ensures Run(g, Moves(ys)).gesture == g
    ensures Run(g, Moves(ys)).reported
      == Flatten(seq(|ys|, k requires 0 <= k < |ys| => Reports(g.origins, ys[k])))
    decreases |ys|
  {
    if |ys| > 0 {
      MovesReportFromEveryOrigin(g, ys[1..]);
      assert Moves(ys)[1..] == Moves(ys[1..]);
      var all := seq(|ys|, k requires 0 <= k < |ys| => Reports(g.origins, ys[k]));
      assert all[1..] == seq(|ys[1..]|, k requires 0 <= k < |ys[1..]| => Reports(g.origins, ys[1..][k]));
    }
  }

  /** During one drag every move reports its travel from the mousedown origin,
      never from the previous move, and the drag stays active. */
  lemma {:induction false} MovesMeasureFromOrigin(startY: int, ys: seq<int>)
    ensures Run(Gesture([startY]), Moves(ys)).gesture == Gesture([startY])
    ensures Run(Gesture([startY]), Moves(ys)).reported
      == seq(|ys|, k requires 0 <= k < |ys| => Delta(startY, ys[k]))
    decreases |ys|
  {
    if |ys| > 0 {
      MovesMeasureFromOrigin(startY, ys[1..]);
      assert Moves(ys)[1..] == Moves(ys[1..]);
    }
  }

  /** Two moves to the same coordinate report the same value twice. */
  lemma RepeatedMoveRepeatsReport(startY: int, y: int)
    ensures Run(Gesture([startY]), [MouseMove(y), MouseMove(y)]).reported == [Delta(startY, y), Delta(startY, y)]
  {
    MovesMeasureFromOrigin(startY, [y, y]);
    assert Moves([y, y]) == [MouseMove(y), MouseMove(y)];
  }

  /** With no listener registered, moves report nothing. */
  lemma {:induction false} IdleMovesReportNothing(ys: seq<int>)
    ensures Run(Idle, Moves(ys)) == Outcome(Idle, [])
    decreases |ys|
  {
    if |ys| > 0 {
      IdleMovesReportNothing(ys[1..]);
      assert Moves(ys)[1..] == Moves(ys[1..]);
    }
  }

  /** After mouseup the later moves report nothing, and a second mouseup
      changes nothing. */
  lemma MouseUpEndsDrag(g: Gesture, ys: seq<int>)
    ensures Run(Handle(g, MouseUp).gesture, Moves(ys)) == Outcome(Idle, [])
    ensures Handle(Handle(g, MouseUp).gesture, MouseUp) == Handle(g, MouseUp)
  {
    IdleMovesReportNothing(ys);
  }

  /** A whole gesture: mousedown, moves, mouseup. Each move reports its travel
      from the mousedown, and the handle ends idle. */
  lemma {:induction false} GestureReportsFromOrigin(startY: int, ys: seq<int>)
    ensures
      var o := Run(Idle, [MouseDown(startY)] + Moves(ys) + [MouseUp]);
      o.gesture.IsIdle() && o.reported == seq(|ys|, k requires 0 <= k < |ys| => Delta(startY, ys[k]))
  {
    RunAppend(Idle, [MouseDown(startY)] + Moves(ys), [MouseUp]);
    RunAppend(Idle, [MouseDown(startY)], Moves(ys));
    MovesMeasureFromOrigin(startY, ys);
    assert Idle.origins + [startY] == [startY];
    assert Run(Idle, [MouseDown(startY)]) == Outcome(Gesture([startY]), []);
    var mid := Run(Idle, [MouseDown(startY)] + Moves(ys));
    assert mid.gesture == Gesture([startY]);
    assert Run(mid.gesture, [MouseUp]) == Outcome(Idle, []);
  }

  /** Running two streams one after the other. */
  lemma {:induction false} RunAppend(g: Gesture, a: seq<Event>, b: seq<Event>)
    ensures Run(g, a + b).gesture == Run(Run(g, a).gesture, b).gesture
    ensures Run(g, a + b).reported == Run(g, a).reported + Run(Run(g, a).gesture, b).reported
    decreases |a|
  {
    if |a| > 0 {
      RunAppend(Handle(g, a[0]).gesture, a[1..], b);
      assert (a + b)[1..] == a[1..] + b;
    } else {
      assert a + b == b;
    }
  }

  /** The handle stays a two-state machine, idle or active at one origin, as
      long as a mousedown only arrives while idle. */
  lemma AtMostOneDrag(g: Gesture, e: Event)
    requires |g.origins| <= 1
    requires e.MouseDown? ==> g.IsIdle()
    ensures |Handle(g, e).gesture.origins| <= 1
    ensures |Handle(g, e).reported| <= 1
  {
  }

  /** A mousedown before the previous drag's mouseup registers a second pair:
      each move then reports twice, once from each origin. */
  lemma SecondMouseDownReportsTwice()
    ensures Run(Idle, [MouseDown(0), MouseDown(100), MouseMove(100)]).reported == [5, 0]
  {
    assert Delta(0, 100) == 5;
    assert Delta(100, 100) == 0;
  }
}

=== FILE: file_order.dfy ===
/** The ordering state of the file-drop-and-merge component: two parallel
    lists, the file names and the file contents, where index i of each
    belongs to the same file, plus an optional selected row. Every event
    handler is one atomic transition from state to state. */
module FileOrder {
  import opened NameOrder
  import opened MergeText

  /** One dropped file, its content already read. */
  datatype FileEntry = FileEntry(name: string, content: string)

  /** `selectedIndex`: null, or the row last clicked or moved to. */
  datatype Selection = NoSelection | Selected(index: nat)

  datatype Direction = Up | Down

  datatype State = State(fileNames: seq<string>, fileContents: seq<string>, selectedIndex: Selection)

  /** The state before any drop: both lists empty, nothing selected. */
  const Initial := State([], [], NoSelection)

  /** The two lists have one entry per file. */
  predicate Paired(st: State)
  {
    |st.fileNames| == |st.fileContents|
  }

  /** The selection is null or names an existing row. The component does not
      keep this: a drop replaces the lists but keeps the old selection. */
  predicate SelectionInRange(st: State)
  {
    st.selectedIndex.NoSelection? || st.selectedIndex.index < |st.fileNames|
  }

  /** The files of a paired state, name i with content i. */
  function Entries(st: State): seq<FileEntry>
    requires Paired(st)
  {
    seq(|st.fileNames|, i requires 0 <= i < |st.fileNames| => FileEntry(st.fileNames[i], st.fileContents[i]))
  }

  function Names(es: seq<FileEntry>): seq<string>
  {
    seq(|es|, i requires 0 <= i < |es| => es[i].name)
  }

  function Contents(es: seq<FileEntry>): seq<string>
  {
    seq(|es|, i requires 0 <= i < |es| => es[i].content)
  }

  // ---------------------------------------------------------------------
  // Sorting a dropped batch by name

  /** Ascending by name: every earlier entry sorts before or with every later one. */
  ghost predicate SortedByName(es: seq<FileEntry>)
  {
    forall i, j :: 0 <= i < j < |es| ==> NameLe(es[i].name, es[j].name)
  }

  /** The entries named `k`, in their order of appearance. */
  function WithName(es: seq<FileEntry>, k: string): seq<FileEntry>
  {
    if |es| == 0 then []
    else (if es[0].name == k then [es[0]] else []) + WithName(es[1..], k)
  }

  /** Put `x` into `t` in front of the first entry whose name does not sort
      strictly before `x`'s, so that `x` precedes its ties. */
  function Insert(x: FileEntry, t: seq<FileEntry>): seq<FileEntry>
  {
    if |t| == 0 then [x]
    else if NameLe(x.name, t[0].name) then [x] + t
    else [t[0]] + Insert(x, t[1..])
  }

  /** Inserting adds exactly the one entry. */
  lemma {:induction false} InsertAdds(x: FileEntry, t: seq<FileEntry>)
    ensures |Insert(x, t)| == |t| + 1
    ensures multiset(Insert(x, t)) == multiset(t) + multiset{x}
    decreases |t|
  {
    if |t| > 0 && !NameLe(x.name, t[0].name) {
      InsertAdds(x, t[1..]);
      assert t == [t[0]] + t[1..];
    }
  }

  /** Inserting into a name-sorted list keeps it sorted. */
  lemma {:induction false} InsertSorted(x: FileEntry, t: seq<FileEntry>)
    requires SortedByName(t)
    ensures SortedByName(Insert(x, t))
    decreases |t|
  {
    if |t| == 0 {
    } else if NameLe(x.name, t[0].name) {
      forall j | 0 <= j < |t|
        ensures NameLe(x.name, t[j].name)
      {
        if j > 0 {
          NameLeTransitive(x.name, t[0].name, t[j].name);
        }
      }
      assert SortedByName([x] + t);
    } else {
      var rest := Insert(x, t[1..]);
      InsertSorted(x, t[1..]);
      InsertAdds(x, t[1..]);
      NameLeTotal(x.name, t[0].name);
      forall j | 0 <= j < |rest|
        ensures NameLe(t[0].name, rest[j].name)
      {
        assert rest[j] in multiset(rest);
        if rest[j] != x {
          assert rest[j] in multiset(t[1..]);
          var m :| 0 <= m < |t[1..]| && t[1..][m] == rest[j];
          assert t[m + 1] == rest[j];
        }
      }
      assert SortedByName([t[0]] + rest);
    }
  }

  /** `Array.prototype.sort` with a name comparator, as a stable insertion sort. */
  function SortByName(es: seq<FileEntry>): (r: seq<FileEntry>)
    ensures |r| == |es|
    ensures multiset(r) == multiset(es)
    ensures SortedByName(r)
  {
    if |es| == 0 then []
    else
      var rest := SortByName(es[1..]);
      assert es == [es[0]] + es[1..];
      InsertAdds(es[0], rest);
      InsertSorted(es[0], rest);
      Insert(es[0], rest)
  }

  lemma WithNameCons(e: FileEntry, t: seq<FileEntry>, k: string)
    ensures WithName([e] + t, k) == (if e.name == k then [e] else []) + WithName(t, k)
  {
    assert ([e] + t)[1..] == t;
  }

  lemma {:induction false} WithNameInsert(x: FileEntry, t: seq<FileEntry>, k: string)
    ensures WithName(Insert(x, t), k) == (if x.name == k then [x] else []) + WithName(t, k)
    decreases |t|
  {
    if |t| == 0 {
      WithNameCons(x, [], k);
    } else if NameLe(x.name, t[0].name) {
      WithNameCons(x, t, k);
    } else {
      var rest := Insert(x, t[1..]);
      WithNameInsert(x, t[1..], k);
      assert Insert(x, t) == [t[0]] + rest;
      WithNameCons(t[0], rest, k);
      WithNameCons(t[0], t[1..], k);
      assert [t[0]] + t[1..] == t;
      NameLeReflexive(x.name);
      var w := WithName(t[1..], k);
      if x.name == k {
        assert t[0].name != k;
        assert WithName(rest, k) == [x] + w;
        assert WithName(Insert(x, t), k) == [] + WithName(rest, k);
        assert WithName(t, k) == [] + w;
      } else {
        assert WithName(rest, k) == [] + w;
      }
    }
  }

  /** The sort is stable: the files that share a name keep their batch order. */
  lemma {:induction false} SortByNameStable(es: seq<FileEntry>, k: string)
    ensures WithName(SortByName(es), k) == WithName(es, k)
    decreases |es|
  {
    if |es| > 0 {
      SortByNameStable(es[1..], k);
      WithNameInsert(es[0], SortByName(es[1..]), k);
    }
  }

  // ---------------------------------------------------------------------
  // Event handlers

  /** `onDrop`: the batch sorted by name, names and contents stored in that one
      order. The selection is left as it was. */
  function Drop(st: State, batch: seq<FileEntry>): (r: State)
    ensures Paired(r) && |r.fileNames| == |batch|
    ensures SortedByName(Entries(r))
    ensures multiset(Entries(r)) == multiset(batch)
    ensures forall k :: WithName(Entries(r), k) == WithName(batch, k)
    ensures r.selectedIndex == st.selectedIndex
  {
    var sorted := SortByName(batch);
    var r := State(Names(sorted), Contents(sorted), st.selectedIndex);
    assert Entries(r) == sorted;
    forall k
      ensures WithName(Entries(r), k) == WithName(batch, k)
    {
      SortByNameStable(batch, k);
    }
    r
  }

  /** A click on row `row` of the rendered list selects it. Rows exist only for
      indices of `fileNames`. */
  function Select(st: State, row: nat): (r: State)
    requires row < |st.fileNames|
    ensures r.fileNames == st.fileNames && r.fileContents == st.fileContents
    ensures SelectionInRange(r) && r.selectedIndex.Selected? && r.selectedIndex.index == row
  {
    st.(selectedIndex := Selected(row))
  }

  /** The neighbour `moveFile` swaps with; it may lie outside the list. */
  function Target(index: nat, d: Direction): int
  {
    if d == Up then index - 1 else index + 1
  }

  /** Exchange the elements at `i` and `j`. */
  function Swap<T>(a: seq<T>, i: nat, j: nat): (r: seq<T>)
    requires i < |a| && j < |a|
    ensures |r| == |a|
    ensures r[i] == a[j] && r[j] == a[i]
    ensures forall k :: 0 <= k < |a| && k != i && k != j ==> r[k] == a[k]
    ensures multiset(r) == multiset(a)
  {
    a[i := a[j]][j := a[i]]
  }

  /** The selection names an existing row and its neighbour in direction `d` exists. */
  predicate CanMove(st: State, d: Direction)
  {
    && st.selectedIndex.Selected?
    && st.selectedIndex.index < |st.fileNames|
    && 0 <= Target(st.selectedIndex.index, d) < |st.fileNames|
  }

  /** `moveFile(direction)`: swap the selected file with its neighbour in both
      lists at once and let the selection follow it. Without a selection, or
      when the neighbour would lie outside the list, nothing changes. A
      selection that is itself outside the list also changes nothing. */
  function MoveFile(st: State, d: Direction): (r: State)
    requires Paired(st)
    ensures Paired(r)
    ensures !CanMove(st, d) ==> r == st
    ensures CanMove(st, d) ==>
      var i := st.selectedIndex.index;
      var t := Target(i, d);
      && r.selectedIndex == Selected(t)
      && |r.fileNames| == |st.fileNames|
      && r.fileNames[i] == st.fileNames[t] && r.fileNames[t] == st.fileNames[i]
      && r.fileContents[i] == st.fileContents[t] && r.fileContents[t] == st.fileContents[i]
      && (forall k :: 0 <= k < |st.fileNames| && k != i && k != t ==>
            r.fileNames[k] == st.fileNames[k] && r.fileContents[k] == st.fileContents[k])
    ensures multiset(r.fileNames) == multiset(st.fileNames)
    ensures multiset(r.fileContents) == multiset(st.fileContents)
    ensures SelectionInRange(st) ==> SelectionInRange(r)
  {
    match st.selectedIndex
    case NoSelection => st
    case Selected(i) =>
      var t := Target(i, d);
      if t < 0 || t >= |st.fileNames| || i >= |st.fileNames| then st
      else State(Swap(st.fileNames, i, t), Swap(st.fileContents, i, t), Selected(t))
  }

  /** `getMergedText`: the contents in current order, newline-joined. Both
      branches return the same join; the first only calls `SplitJoin` to
      establish the round-trip clause of the contract. */
  function MergedText(st: State): (r: string)
    ensures |st.fileContents| == 0 ==> r == ""
    ensures |st.fileContents| >= 1 && (forall i :: 0 <= i < |st.fileContents| ==> NoNewline(st.fileContents[i]))
      ==> Split(r) == st.fileContents
  {
    if |st.fileContents| >= 1 && (forall i :: 0 <= i < |st.fileContents| ==> NoNewline(st.fileContents[i])) then
      SplitJoin(st.fileContents);
      Join(st.fileContents)
    else
      Join(st.fileContents)
  }

  // ---------------------------------------------------------------------
  // Properties of the handlers

  /** After a click the arrow buttons do what their enabled state promises:
      "up" moves unless the first row is selected, "down" moves unless the
      last row is selected. */
  lemma SelectEnablesArrows(st: State, row: nat)
    requires row < |st.fileNames|
    ensures CanMove(Select(st, row), Up) <==> row != 0
    ensures CanMove(Select(st, row), Down) <==> row != |st.fileNames| - 1
  {
  }

  function Opposite(d: Direction): Direction
  {
    if d == Up then Down else Up
  }

  /** Swapping the same two positions again restores the list. */
  lemma SwapTwice<T>(a: seq<T>, i: nat, j: nat)
    requires i < |a| && j < |a|
    ensures Swap(Swap(a, i, j), j, i) == a
  {
    var b := Swap(Swap(a, i, j), j, i);
    assert forall k :: 0 <= k < |a| ==> b[k] == a[k];
  }

  /** A move that happened can be undone by the opposite move: both lists and
      the selection come back. */
  lemma MoveFileRoundTrip(st: State, d: Direction)
    requires Paired(st) && CanMove(st, d)
    ensures CanMove(MoveFile(st, d), Opposite(d))
    ensures MoveFile(MoveFile(st, d), Opposite(d)) == st
  {
    var i := st.selectedIndex.index;
    var t := Target(i, d);
    assert Target(t, Opposite(d)) == i;
    SwapTwice(st.fileNames, i, t);
    SwapTwice(st.fileContents, i, t);
  }

  /** The files move as whole (name, content) pairs: the entry list is swapped. */
  lemma MoveFileKeepsPairs(st: State, d: Direction)
    requires Paired(st) && CanMove(st, d)
    ensures Entries(MoveFile(st, d)) == Swap(Entries(st), st.selectedIndex.index, Target(st.selectedIndex.index, d))
    ensures multiset(Entries(MoveFile(st, d))) == multiset(Entries(st))
  {
  }

  /** Any move keeps the set of files, as pairs, the same. */
  lemma MoveFilePermutesEntries(st: State, d: Direction)
    requires Paired(st)
    ensures multiset(Entries(MoveFile(st, d))) == multiset(Entries(st))
  {
    if CanMove(st, d) {
      MoveFileKeepsPairs(st, d);
    }
  }

  /** The merged text after a move is the join of the contents with the two
      files exchanged; with nothing selected it is unchanged. */
  lemma MergedTextAfterMove(st: State, d: Direction)
    requires Paired(st)
    ensures CanMove(st, d) ==>
      MergedText(MoveFile(st, d)) == Join(Swap(st.fileContents, st.selectedIndex.index, Target(st.selectedIndex.index, d)))
    ensures !CanMove(st, d) ==> MergedText(MoveFile(st, d)) == MergedText(st)
  {
  }

  /** The merged text after a drop is the newline-join of the contents in name order. */
  lemma MergedTextAfterDrop(st: State, batch: seq<FileEntry>)
    ensures MergedText(Drop(st, batch)) == Join(Contents(SortByName(batch)))
    ensures |batch| == 0 ==> MergedText(Drop(st, batch)) == ""
  {
    var r := Drop(st, batch);
    assert r.fileContents == Contents(SortByName(batch));
  }

  /** Dropping one file lists just that file. */
  lemma DropSingle(st: State, x: FileEntry)
    ensures Drop(st, [x]) == State([x.name], [x.content], st.selectedIndex)
  {
    assert SortByName([x]) == [x] by {
      assert [x][1..] == [];
    }
  }

  /** A drop keeps a stale selection: after dropping two files, clicking the
      second and dropping one file, the selection points past the end. */
  lemma DropKeepsStaleSelection()
    ensures
      var two := Drop(Initial, [FileEntry("a.txt", "A"), FileEntry("b.txt", "B")]);
      var one := Drop(Select(two, 1), [FileEntry("c.txt", "C")]);
      && one == State(["c.txt"], ["C"], Selected(1))
      && !SelectionInRange(one)
  {
    var two := Drop(Initial, [FileEntry("a.txt", "A"), FileEntry("b.txt", "B")]);
    assert |two.fileNames| == 2;
    DropSingle(Select(two, 1), FileEntry("c.txt", "C"));
  }

  /** Dropping two files that arrive out of name order lists them swapped. */
  lemma DropPairOutOfOrder(st: State, x: FileEntry, y: FileEntry)
    requires !NameLe(x.name, y.name)
    ensures Drop(st, [x, y]) == State([y.name, x.name], [y.content, x.content], st.selectedIndex)
  {
    assert [x, y][1..] == [y];
    assert SortByName([y]) == [y] by {
      assert [y][1..] == [];
    }
    assert Insert(x, [y]) == [y] + Insert(x, []);
    var sorted := SortByName([x, y]);
    assert sorted == [y, x];
    assert Names(sorted) == [y.name, x.name];
    assert Contents(sorted) == [y.content, x.content];
  }

  /** Dropping `b.txt` (content B) and `a.txt` (content A) lists `a.txt` first
      and merges to "A\nB". */
  lemma DropExample()
    ensures
      var r := Drop(Initial, [FileEntry("b.txt", "B"), FileEntry("a.txt", "A")]);
      r.fileNames == ["a.txt", "b.txt"] && MergedText(r) == "A\nB"
  {
    assert !NameLe("b.txt", "a.txt");
    DropPairOutOfOrder(Initial, FileEntry("b.txt", "B"), FileEntry("a.txt", "A"));
    var r := Drop(Initial, [FileEntry("b.txt", "B"), FileEntry("a.txt", "A")]);
    assert r.fileContents == ["A", "B"];
    assert ["A", "B"][1..] == ["B"];
    assert Join(["A", "B"]) == "A\nB";
  }

  /** Swapping the second element of three with the first. */
  lemma SwapFirstTwo<T>(x: T, y: T, z: T)
    ensures Swap([x, y, z], 1, 0) == [y, x, z]
  {
  }

  /** With files a, b, c and row 1 selected, moving up gives b, a, c with row 0 selected. */
  lemma MoveUpExample()
    ensures
      var st := State(["a", "b", "c"], ["A", "B", "C"], Selected(1));
      MoveFile(st, Up) == State(["b", "a", "c"], ["B", "A", "C"], Selected(0))
  {
    SwapFirstTwo("a", "b", "c");
    SwapFirstTwo("A", "B", "C");
  }
}

=== FILE: merge_text.dfy ===
/** The merged view: the file contents joined with a single newline between
    neighbours (`Array.prototype.join("\n")`), and the line split that undoes
    it when no content holds a newline of its own. */
module MergeText {

  const Newline: char := '\n'

  /** Sum of the lengths of the pieces. */
  function TotalLength(cs: seq<string>): nat
  {
    if |cs| == 0 then 0 else |cs[0]| + TotalLength(cs[1..])
  }

  /** `Array.prototype.join("\n")` over strings: the empty list gives "",
      otherwise the pieces in order with one newline between neighbours. */
  function Join(cs: seq<string>): (r: string)
    ensures |cs| == 0 ==> r == ""
    ensures |cs| > 0 ==> |r| == TotalLength(cs) + |cs| - 1
    ensures |cs| > 0 ==> r[..|cs[0]|] == cs[0]
  {
    if |cs| == 0 then ""
    else if |cs| == 1 then cs[0]
    else cs[0] + [Newline] + Join(cs[1..])
  }

  predicate NoNewline(s: string)
  {
    forall k :: 0 <= k < |s| ==> s[k] != Newline
  }

  /** Cut a text at every newline; a text with n newlines gives n + 1 lines. */
  function Split(s: string): (r: seq<string>)
    ensures |r| >= 1
    ensures forall i :: 0 <= i < |r| ==> NoNewline(r[i])
    decreases |s|
  {
    if |s| == 0 then [""]
    else if s[0] == Newline then [""] + Split(s[1..])
    else
      var rest := Split(s[1..]);
      [[s[0]] + rest[0]] + rest[1..]
  }

  /** Joining after splitting gives back any text. */
  lemma {:induction false} JoinSplit(s: string)
    ensures Join(Split(s)) == s
    decreases |s|
  {
    if |s| == 0 {
    } else if s[0] == Newline {
      JoinSplit(s[1..]);
      var r := [""] + Split(s[1..]);
      assert r[1..] == Split(s[1..]);
      assert s == [s[0]] + s[1..];
    } else {
      JoinSplit(s[1..]);
      var rest := Split(s[1..]);
      var r := [[s[0]] + rest[0]] + rest[1..];
      assert r[1..] == rest[1..];
      assert s == [s[0]] + s[1..];
      if |rest| == 1 {
        assert Join(rest) == rest[0];
      } else {
        assert Join(rest) == rest[0] + [Newline] + Join(rest[1..]);
      }
    }
  }

  /** A newline-free line followed by a newline starts a new piece. */
  lemma {:induction false} SplitLine(c: string, t: string)
    requires NoNewline(c)
    ensures Split(c + [Newline] + t) == [c] + Split(t)
    ensures Split(c) == [c]
    decreases |c|
  {
    if |c| == 0 {
      assert c + [Newline] + t == [Newline] + t;
      assert ([Newline] + t)[1..] == t;
    } else {
      var c' := c[1..];
      SplitLine(c', t);
      assert (c + [Newline] + t)[1..] == c' + [Newline] + t;
      assert [c[0]] + c' == c;
    }
  }

  /** Splitting after joining gives back the pieces, when there is at least
      one piece and no piece holds a newline. */
  lemma {:induction false} SplitJoin(cs: seq<string>)
    requires |cs| >= 1
    requires forall i :: 0 <= i < |cs| ==> NoNewline(cs[i])
    ensures Split(Join(cs)) == cs
    decreases |cs|
  {
    if |cs| == 1 {
      SplitLine(cs[0], "");
    } else {
      SplitJoin(cs[1..]);
      SplitLine(cs[0], Join(cs[1..]));
      assert [cs[0]] + cs[1..] == cs;
    }
  }

  /** Joining two non-empty lists is joining each and putting a newline
      between the results. */
  lemma {:induction false} JoinAppend(a: seq<string>, b: seq<string>)
    requires |a| > 0 && |b| > 0
    ensures Join(a + b) == Join(a) + [Newline] + Join(b)
    decreases |a|
  {
    if |a| == 1 {
      assert (a + b)[1..] == b;
    } else {
      JoinAppend(a[1..], b);
      assert (a + b)[1..] == a[1..] + b;
    }
  }
}

=== FILE: move_as_written.dfy ===
/** `moveFile` exactly as the component writes it, over JavaScript arrays:
    reading past the end yields `undefined`, writing past the end grows the
    array. Its guard checks only the neighbour index, so a selection left past
    the end by an earlier, larger drop lets "up" write beyond the list. */
module MoveAsWritten {
  import opened MergeText
  import opened FileOrder

  /** One element of a JavaScript array of strings. */
  datatype Slot = Undefined | Defined(value: string)

  datatype JsState = JsState(fileNames: seq<Slot>, fileContents: seq<Slot>, selectedIndex: Selection)

  /** `a[i]`: `undefined` outside the array. */
  function Read(a: seq<Slot>, i: nat): Slot
  {
    if i < |a| then a[i] else Undefined
  }

  /** `a[i] = v`: past the end the array grows to length i + 1; the indices
      skipped over become holes, which read back as `undefined`. */
  function Write(a: seq<Slot>, i: nat, v: Slot): seq<Slot>
  {
    if i < |a| then a[i := v] else a + seq(i - |a|, _ => Undefined) + [v]
  }

  function Max(x: int, y: int): int
  {
    if x >= y then x else y
  }

  /** `[a[i], a[j]] = [a[j], a[i]]`: both reads first, then the writes to `i` and `j` in turn. */
  function JsSwap(a: seq<Slot>, i: nat, j: nat): (r: seq<Slot>)
    ensures |r| == Max(|a|, Max(i, j) + 1)
    ensures r[j] == Read(a, i)
    ensures i != j ==> r[i] == Read(a, j)
    ensures forall k :: 0 <= k < |a| && k != i && k != j ==> r[k] == a[k]
    ensures forall k :: |a| <= k < |r| && k != i && k != j ==> r[k] == Undefined
  {
    var x := Read(a, j);
    var y := Read(a, i);
    Write(Write(a, i, x), j, y)
  }

  /** `moveFile(direction)` as written: only `targetIndex` is checked against
      `fileNames.length`. */
  function MoveFileAsWritten(st: JsState, d: Direction): (r: JsState)
    ensures st.selectedIndex.NoSelection? ==> r == st
    ensures st.selectedIndex.Selected? && !(0 <= Target(st.selectedIndex.index, d) < |st.fileNames|) ==> r == st
    ensures st.selectedIndex.Selected? && 0 <= Target(st.selectedIndex.index, d) < |st.fileNames| ==>
      var i := st.selectedIndex.index;
      var t := Target(i, d);
      && r.selectedIndex == Selected(t)
      && |r.fileNames| == Max(|st.fileNames|, Max(i, t) + 1)
      && |r.fileContents| == Max(|st.fileContents|, Max(i, t) + 1)
      && r.fileNames[t] == Read(st.fileNames, i) && r.fileNames[i] == st.fileNames[t]
      && r.fileContents[t] == Read(st.fileContents, i) && r.fileContents[i] == Read(st.fileContents, t)
      && (forall k :: 0 <= k < |st.fileNames| && k != i && k != t ==> r.fileNames[k] == st.fileNames[k])
      && (forall k :: 0 <= k < |st.fileContents| && k != i && k != t ==> r.fileContents[k] == st.fileContents[k])
  {
    match st.selectedIndex
    case NoSelection => st
    case Selected(i) =>
      var t := Target(i, d);
      if t < 0 || t >= |st.fileNames| then st
      else JsState(JsSwap(st.fileNames, i, t), JsSwap(st.fileContents, i, t), Selected(t))
  }

  function Lift(a: seq<string>): seq<Slot>
  {
    seq(|a|, k requires 0 <= k < |a| => Defined(a[k]))
  }

  function LiftState(st: State): JsState
  {
    JsState(Lift(st.fileNames), Lift(st.fileContents), st.selectedIndex)
  }

  /** `Array.prototype.join` prints `undefined` as the empty string. */
  function Text(s: Slot): string
  {
    match s
    case Undefined => ""
    case Defined(v) => v
  }

  function JsMergedText(st: JsState): string
  {
    Join(seq(|st.fileContents|, k requires 0 <= k < |st.fileContents| => Text(st.fileContents[k])))
  }

  /** Over arrays without `undefined` slots, the merged text as written is the
      model's `MergedText`. */
  lemma JsMergedTextAgrees(st: State)
    ensures JsMergedText(LiftState(st)) == MergedText(st)
  {
    var js := LiftState(st);
    assert seq(|js.fileContents|, k requires 0 <= k < |js.fileContents| => Text(js.fileContents[k])) == st.fileContents;
  }

  /** While the selection names an existing row, the code as written and the
      model's `MoveFile` make the same move. */
  lemma AsWrittenAgreesInRange(st: State, d: Direction)
    requires Paired(st) && SelectionInRange(st)
    ensures MoveFileAsWritten(LiftState(st), d) == LiftState(MoveFile(st, d))
  {
    if CanMove(st, d) {
      var i := st.selectedIndex.index;
      var t := Target(i, d);
      var r := MoveFile(st, d);
      assert JsSwap(Lift(st.fileNames), i, t) == Lift(r.fileNames);
      assert JsSwap(Lift(st.fileContents), i, t) == Lift(r.fileContents);
    }
  }

  /** As written, "up" with the selection one past the last row passes the
      guard and grows both arrays: the last row moves one further down, an
      `undefined` takes its place, and the rows above stay as they were. */
  lemma StaleUpGrowsArrays(st: State)
    requires Paired(st) && |st.fileNames| >= 1
    requires st.selectedIndex == Selected(|st.fileNames|)
    ensures
      var n := |st.fileNames|;
      var r := MoveFileAsWritten(LiftState(st), Up);
      && |r.fileNames| == n + 1 && |r.fileContents| == n + 1
      && r.fileNames[n - 1] == Undefined && r.fileNames[n] == Defined(st.fileNames[n - 1])
      && r.fileContents[n - 1] == Undefined && r.fileContents[n] == Defined(st.fileContents[n - 1])
      && r.selectedIndex == Selected(n - 1)
      && (forall k :: 0 <= k < n - 1 ==>
            r.fileNames[k] == Defined(st.fileNames[k]) && r.fileContents[k] == Defined(st.fileContents[k]))
    ensures MoveFile(st, Up) == st
  {
  }

  /** The code as written and `MoveFile` part ways on exactly one input: "up"
      with the selection one past the last row of a non-empty list. */
  lemma AsWrittenDiffersExactly(st: State, d: Direction)
    requires Paired(st)
    ensures MoveFileAsWritten(LiftState(st), d) != LiftState(MoveFile(st, d))
      <==> st.selectedIndex == Selected(|st.fileNames|) && d == Up && |st.fileNames| >= 1
  {
    if SelectionInRange(st) {
      AsWrittenAgreesInRange(st, d);
    } else if st.selectedIndex == Selected(|st.fileNames|) && d == Up && |st.fileNames| >= 1 {
      StaleUpGrowsArrays(st);
    }
  }

  /** Drop a.txt and b.txt, click the second row, drop c.txt alone (the state
      `DropKeepsStaleSelection` reaches), press up: as written the list shows
      an empty row above c.txt and the merged text gains a leading newline;
      `MoveFile` leaves the state as it is. */
  lemma StaleUpExample()
    ensures
      var one := State(["c.txt"], ["C"], Selected(1));
      var r := MoveFileAsWritten(LiftState(one), Up);
      && r.fileNames == [Undefined, Defined("c.txt")]
      && JsMergedText(r) == "\nC"
      && MoveFile(one, Up) == one
  {
    var one := State(["c.txt"], ["C"], Selected(1));
    StaleUpGrowsArrays(one);
    var r := MoveFileAsWritten(LiftState(one), Up);
    assert r.fileNames == [Undefined, Defined("c.txt")];
    assert r.fileContents == [Undefined, Defined("C")];
    var texts := seq(|r.fileContents|, k requires 0 <= k < |r.fileContents| => Text(r.fileContents[k]));
    assert texts == ["", "C"];
  }
}

=== FILE: name_order.dfy ===
/** The order in which a dropped batch of files is sorted: ascending by file
    name. The component compares names with `localeCompare`; this model uses
    plain lexicographic order on the characters of the name, which is a total
    order, so that two names tie exactly when they are equal. */
module NameOrder {

  /** Lexicographic order stated directly: `a` is a prefix of `b`, or at the
      first position where they differ `a` has the smaller character. */
  ghost predicate FirstDifferenceLe(a: string, b: string)
  {
    a <= b || exists k :: 0 <= k < |a| && k < |b| && a[..k] == b[..k] && a[k] < b[k]
  }

  /** A smaller first character decides. */
  lemma FirstDifferenceHeadLess(a: string, b: string)
    requires |a| > 0 && |b| > 0 && a[0] < b[0]
    ensures FirstDifferenceLe(a, b)
  {
    assert a[..0] == b[..0];
  }

  /** A larger first character decides the other way. */
  lemma FirstDifferenceHeadGreater(a: string, b: string)
    requires |a| > 0 && |b| > 0 && a[0] > b[0]
    ensures !FirstDifferenceLe(a, b)
  {
    if exists k :: 0 <= k < |a| && k < |b| && a[..k] == b[..k] && a[k] < b[k] {
      var k :| 0 <= k < |a| && k < |b| && a[..k] == b[..k] && a[k] < b[k];
      assert k > 0 ==> a[..k][0] == b[..k][0];
    }
  }

  /** Equal first characters pass the question on to the rest. */
  lemma FirstDifferenceHeadEqualTail(a: string, b: string)
    requires |a| > 0 && |b| > 0 && a[0] == b[0] && FirstDifferenceLe(a[1..], b[1..])
    ensures FirstDifferenceLe(a, b)
  {
    var a', b' := a[1..], b[1..];
    assert a == [a[0]] + a' && b == [b[0]] + b';
    if a' <= b' {
      assert a <= b;
    } else {
      var k :| 0 <= k < |a'| && k < |b'| && a'[..k] == b'[..k] && a'[k] < b'[k];
      assert a[..k + 1] == [a[0]] + a'[..k] && b[..k + 1] == [b[0]] + b'[..k];
      assert a[k + 1] == a'[k] && b[k + 1] == b'[k];
    }
  }

  lemma FirstDifferenceHeadEqualHead(a: string, b: string)
    requires |a| > 0 && |b| > 0 && a[0] == b[0] && FirstDifferenceLe(a, b)
    ensures FirstDifferenceLe(a[1..], b[1..])
  {
    var a', b' := a[1..], b[1..];
    if a <= b {
      assert a' <= b';
    } else {
      var k :| 0 <= k < |a| && k < |b| && a[..k] == b[..k] && a[k] < b[k];
      assert k > 0;
      assert a[1..k] == a[..k][1..] && b[1..k] == b[..k][1..];
      assert a'[..k - 1] == a[1..k] && b'[..k - 1] == b[1..k];
      assert a'[k - 1] == a[k] && b'[k - 1] == b[k];
    }
  }

  /** `FirstDifferenceLe` looked at one character at a time. */
  lemma FirstDifferenceLeCons(a: string, b: string)
    ensures FirstDifferenceLe(a, b) <==>
      (|a| == 0 || (|b| > 0 && (a[0] < b[0] || (a[0] == b[0] && FirstDifferenceLe(a[1..], b[1..])))))
  {
    if |a| > 0 && |b| > 0 {
      if a[0] < b[0] {
        FirstDifferenceHeadLess(a, b);
      } else if a[0] > b[0] {
        FirstDifferenceHeadGreater(a, b);
      } else if FirstDifferenceLe(a[1..], b[1..]) {
        FirstDifferenceHeadEqualTail(a, b);
      } else if FirstDifferenceLe(a, b) {
        FirstDifferenceHeadEqualHead(a, b);
      }
    }
  }

  /** `a` sorts before or together with `b`, one character at a time: the
      empty name first, then by first character, then by the rest. */
  predicate NameLe(a: string, b: string)
    decreases |a|
  {
    |a| == 0 || (|b| > 0 && (a[0] < b[0] || (a[0] == b[0] && NameLe(a[1..], b[1..]))))
  }

  /** The character-by-character comparator is lexicographic order: `a` is a
      prefix of `b`, or the first character where they differ is smaller in `a`. */
  lemma {:induction false} NameLeIsFirstDifference(a: string, b: string)
    ensures NameLe(a, b) <==> FirstDifferenceLe(a, b)
    decreases |a|
  {
    FirstDifferenceLeCons(a, b);
    if |a| > 0 && |b| > 0 && a[0] == b[0] {
      NameLeIsFirstDifference(a[1..], b[1..]);
    }
  }

  lemma {:induction false} NameLeReflexive(a: string)
    ensures NameLe(a, a)
    decreases |a|
  {
    if |a| > 0 {
      NameLeReflexive(a[1..]);
    }
  }

  lemma {:induction false} NameLeTotal(a: string, b: string)
    ensures NameLe(a, b) || NameLe(b, a)
    decreases |a|
  {
    if |a| > 0 && |b| > 0 && a[0] == b[0] {
      NameLeTotal(a[1..], b[1..]);
    }
  }

  lemma {:induction false} NameLeTransitive(a: string, b: string, c: string)
    requires NameLe(a, b) && NameLe(b, c)
    ensures NameLe(a, c)
    decreases |a|
  {
    if |a| > 0 && a[0] == b[0] && b[0] == c[0] {
      NameLeTransitive(a[1..], b[1..], c[1..]);
    }
  }

  lemma {:induction false} NameLeAntisymmetric(a: string, b: string)
    requires NameLe(a, b) && NameLe(b, a)
    ensures a == b
    decreases |a|
  {
    if |a| > 0 {
      NameLeAntisymmetric(a[1..], b[1..]);
      assert a == [a[0]] + a[1..];
      assert b == [b[0]] + b[1..];
    }
  }
}
